=== FILE: README.md ===
# Disk availability preflight check

A Dafny model of the `disk_availability` health check of openshift-ansible's
health checker. Before an install or an upgrade, the check confirms that a
host has enough free disk space on the paths OpenShift uses.

The model covers these parts of the check:

- **The two requirement tables.**
  - The install table lists `/var` (40/15/20 GB for masters/nodes/etcd), then `/usr/local/bin` (1 GB each), then the system temporary directory (1 GB each).
  - The upgrade table lists only `/var` (10/5/5 GB).
  - When the temporary directory coincides with a listed path, the Python dict literal collapses the duplicate key. It keeps the first position and takes the last value. `Requirements.InstallTable` models that collapse. With the temporary directory at `/var`, the install requirement on `/var` drops to 1 GB for every role (a master's from 40 GB), below the upgrade row's 5 and 10 GB.
- **Activation.** The check runs only when the framework's own activation predicate holds and the host is in a group that some row of the install table names.
- **Mount resolution (`free_bytes`).** It climbs from a path towards `/` with POSIX `dirname`, for at most 32 steps. It stops at the first mount point it finds and reads that mount's `size_available`. When no mount is reached, or the mount has no size, it raises an error. The message names the path and the sorted list of known mount points, or `none`.
- **The requirement on a path.**
  - The baseline is the maximum over the host's groups. A group the row does not list counts as 0.
  - A legacy bare-number override covers `/var` only. A structured override is keyed by path and then by group, in GB.
  - A non-zero override wins in every context. A zero override falls back to the table.
  - The literal playbook context `upgrade` swaps in the upgrade row, which exists for `/var` only.
- **The verdict.**
  - Rows are walked in table order. Each path's mount is resolved before its requirement is computed.
  - The first path whose free bytes fall strictly below its requirement fails the check. The failure carries that path, its free bytes and its required bytes.
  - Otherwise the check passes.

Modules:

- `Results`: `Option` and `Result`.
- `PosixPath`: `dirname`, repeated ascent, and absolute paths built from components.
- `StringOrder`: Python's code-point ordering of strings, and sorting a set of names.
- `Mounts`: `free_bytes` and its error message.
- `Requirements`: roles, the two tables, and the maximum over groups.
- `DiskAvailability`: overrides, `Required`, the ordered evaluation `EvaluateRows`/`Run`, and activation with `IsActive`/`Execute`.
- `Scenarios`: worked cases derived from the general lemmas.

Mount tables are `map<string, Option<nat>>`. `None` stands for a mount entry that has no `size_available`. The evaluator takes the mount lookup as a function parameter of type `Resolver`; `Run` instantiates it with `FreeBytes` over the host's mount table.

## Model

| member | source | states |
|---|---|---|
| PosixPath.HeadLengthSpec | roles/openshift_health_checker/openshift_checks/disk_availability.py:138 | the head that `dirname` keeps ends at the last slash of the path, and no slash follows it |
| PosixPath.RStripSlashesSpec | roles/openshift_health_checker/openshift_checks/disk_availability.py:138 | stripping trailing slashes yields a prefix that does not end in a slash, and only slashes were removed |
| PosixPath.Dirname | roles/openshift_health_checker/openshift_checks/disk_availability.py:138 | the parent is never longer than the path, and the parent of an absolute path is absolute |
| PosixPath.DirnameSpec | roles/openshift_health_checker/openshift_checks/disk_availability.py:138 | a parent is a prefix of its path, and a path is its own parent exactly when it is empty or all slashes, so the ascent's fixed points are `""`, `/`, `//` and every other all-slash path |
| PosixPath.DirnameOfJoin | roles/openshift_health_checker/openshift_checks/disk_availability.py:138 | the parent of `/c0/.../cn` is `/c0/.../c(n-1)`, and the parent of `/c0` is `/` |
| PosixPath.AncestorOfJoin | roles/openshift_health_checker/openshift_checks/disk_availability.py:137-139 | `k` ascent steps from `/c0/.../cn` drop exactly the last `k` components |
| PosixPath.DirnameKeepsDoubleLead | roles/openshift_health_checker/openshift_checks/disk_availability.py:138 | the parent of a path that starts with two slashes also starts with two slashes |
| PosixPath.AncestorKeepsDoubleLead | roles/openshift_health_checker/openshift_checks/disk_availability.py:137-139 | every ancestor the ascent visits from a path with two leading slashes keeps both slashes |
| PosixPath.AncestorOfAllSlashes | roles/openshift_health_checker/openshift_checks/disk_availability.py:134-139 | once the ascent reaches `/`, `//` or any other all-slash path it stays there for every remaining step |
| StringOrder.Insert | roles/openshift_health_checker/openshift_checks/disk_availability.py:144 | inserting into a sorted listing keeps it sorted, adds exactly one element, and keeps it duplicate-free when the element is new |
| StringOrder.SortSet | roles/openshift_health_checker/openshift_checks/disk_availability.py:144 | `sorted(ansible_mounts)`: lists each known mount exactly once, in ascending order |
| StringOrder.SortedListingUnique | roles/openshift_health_checker/openshift_checks/disk_availability.py:144 | two sorted duplicate-free listings of the same names are equal, so the listing in the error message is determined by the set of mounts |
| Mounts.Ascend | roles/openshift_health_checker/openshift_checks/disk_availability.py:133-139 | the loop stops at the first mounted ancestor within the step budget; if none is mounted it stops at the ancestor exactly `depth` steps up |
| Mounts.FirstMountUnique | roles/openshift_health_checker/openshift_checks/disk_availability.py:137 | a path has at most one first mounted ancestor |
| Mounts.FreeBytes | roles/openshift_health_checker/openshift_checks/disk_availability.py:131-148 | succeeds exactly when one of the path and its first 32 ancestors is mounted and the first such mount has a size; the value is that mount's size; otherwise the error carries the original path and all known mounts |
| Mounts.FreeBytesAtFirstMount | roles/openshift_health_checker/openshift_checks/disk_availability.py:137-146 | the first mounted ancestor within 32 steps decides the outcome: its size, or the error when it has none |
| Mounts.MountedPathResolvesDirectly | roles/openshift_health_checker/openshift_checks/disk_availability.py:137-142 | a mounted path is its own mount point, and no ascent happens |
| Mounts.UnmountedAncestryFails | roles/openshift_health_checker/openshift_checks/disk_availability.py:141-146 | when none of the path and its 32 ancestors is mounted, the lookup raises with the path and the known mounts |
| Mounts.RootedTableResolvesShallowPaths | roles/openshift_health_checker/openshift_checks/disk_availability.py:134-139 | with `/` mounted and every mount sized, any normalised absolute path `/c0/.../cn` of at most 32 components resolves |
| Mounts.DeepPathEscapesBound | roles/openshift_health_checker/openshift_checks/disk_availability.py:134-146 | the 32-step bound is real: with `/` the only mount, a normalised path `/c0/.../cn` of more than 32 components does not reach it and raises |
| Mounts.DoubleSlashPathMissesRoot | roles/openshift_health_checker/openshift_checks/disk_availability.py:137-146 | with `/` the only mount, every path with two leading slashes, such as `//tmp`, raises: no ancestor of it is `/` |
| Mounts.FreeBytesWithinMounts | roles/openshift_health_checker/openshift_checks/disk_availability.py:142-148 | a lower bound on the size of every mount bounds whatever a lookup resolves to |
| Mounts.JoinQuoted | roles/openshift_health_checker/openshift_checks/disk_availability.py:144 | the joined listing is empty exactly when there are no names, and otherwise opens and closes with a double quote |
| Mounts.KnownMountsText | roles/openshift_health_checker/openshift_checks/disk_availability.py:144 | the mount listing reads `none` exactly when there are no known mounts |
| Mounts.EmptyTableListsNone | roles/openshift_health_checker/openshift_checks/disk_availability.py:144 | any listing holding exactly the mount points of an empty table reads `none` |
| Mounts.ErrorText | roles/openshift_health_checker/openshift_checks/disk_availability.py:145-146 | the message opens with its fixed lead and then the path, and ends in `none.` exactly when no mount point is known |
| Mounts.Describe | roles/openshift_health_checker/openshift_checks/disk_availability.py:143-146 | the error message names the path and lists every known mount exactly once, in sorted order, or `none` when there are none |
| Requirements.RoleOf | roles/openshift_health_checker/openshift_checks/disk_availability.py:17-36 | a group name has a role exactly when it is `masters`, `nodes` or `etcd`, the keys of every row |
| Requirements.InstallTable | roles/openshift_health_checker/openshift_checks/disk_availability.py:17-36 | `/var` comes first and `/usr/local/bin` second; paths are distinct; every row lists the three roles; the temporary directory has a 1 GB row; no other path appears |
| Requirements.UpgradeTableRelaxesVarOnly | roles/openshift_health_checker/openshift_checks/disk_availability.py:38-45 | only `/var` has an upgrade row; it lists the same roles as the declared `/var` install row (40/15/20 GB) and asks each of them for strictly less than that row |
| Requirements.MaxOf | roles/openshift_health_checker/openshift_checks/disk_availability.py:84 | `max()` of a non-empty sequence bounds every element and equals one of them |
| Requirements.Strictest | roles/openshift_health_checker/openshift_checks/disk_availability.py:84 | a host's baseline bounds every one of its groups' row values (0 when unlisted) and equals one of them |
| Requirements.NoListedRoleOwesNothing | roles/openshift_health_checker/openshift_checks/disk_availability.py:84 | a host none of whose groups the row lists owes 0 on that row |
| Requirements.MoreGroupsNeverLower | roles/openshift_health_checker/openshift_checks/disk_availability.py:84 | adding groups to a host never lowers its baseline |
| Requirements.TableGroupsAreTheRoles | roles/openshift_health_checker/openshift_checks/disk_availability.py:50-52 | for any temporary directory, the union of the install table's group keys is exactly masters, nodes and etcd |
| DiskAvailability.OverrideTable | roles/openshift_health_checker/openshift_checks/disk_availability.py:62-75 | a bare number becomes a table with the single path `/var`, naming exactly the three role groups, each with that number |
| DiskAvailability.OverrideBytes | roles/openshift_health_checker/openshift_checks/disk_availability.py:86-89 | the override is a whole number of GB in bytes: at least every group's GB times 10^9, and equal to one of them |
| DiskAvailability.Required | roles/openshift_health_checker/openshift_checks/disk_availability.py:84-101 | a non-zero override is the requirement in every context; a zero override gives the strictest baseline from the upgrade row on `/var` in an upgrade, and from the install row otherwise |
| DiskAvailability.EvaluateRows | roles/openshift_health_checker/openshift_checks/disk_availability.py:82-128 | the check passes exactly when every row's path resolves with at least its requirement free; a failure names a monitored path whose resolved free bytes are strictly below its requirement |
| DiskAvailability.Run | roles/openshift_health_checker/openshift_checks/disk_availability.py:56-128 | passes exactly when every row of the install table for the temporary directory resolves with its requirement free; a failure names `/var`, `/usr/local/bin` or the temporary directory, with the free bytes that path resolves to and the host's requirement on that path, the free bytes strictly below the requirement |
| DiskAvailability.Execute | roles/openshift_health_checker/openshift_checks/disk_availability.py:47-54 | the check is skipped exactly when the base predicate fails or no group of the host is masters, nodes or etcd; a check that runs never meets the empty-groups error |
| DiskAvailability.IsActive | roles/openshift_health_checker/openshift_checks/disk_availability.py:47-54 | active exactly when the base predicate holds and the host's groups intersect {masters, nodes, etcd}, the groups the install table names for every temporary directory |
| DiskAvailability.ActiveHostNeverLacksGroups | roles/openshift_health_checker/openshift_checks/disk_availability.py:47-57 | an active host has groups, so `max()` over them never raises during its run |
| DiskAvailability.GroupsPresentNoGroupError | roles/openshift_health_checker/openshift_checks/disk_availability.py:84 | the empty-groups error arises only for a host without groups |
| DiskAvailability.SkipAdequateRow | roles/openshift_health_checker/openshift_checks/disk_availability.py:82-103 | a satisfied row is passed over and the walk continues with the next |
| DiskAvailability.FirstDeficientRowFails | roles/openshift_health_checker/openshift_checks/disk_availability.py:103-126 | after satisfied rows, the first row with too little free space decides the verdict, with its free and required bytes, whatever later rows hold |
| DiskAvailability.FirstUnresolvedRowRaises | roles/openshift_health_checker/openshift_checks/disk_availability.py:82-84 | after satisfied rows, a row whose mount cannot be resolved raises that error, because the mount is resolved before the requirement, even where the host owes nothing |
| DiskAvailability.ExactFitPasses | roles/openshift_health_checker/openshift_checks/disk_availability.py:103 | free space equal to the requirement is enough; only strictly less fails |
| DiskAvailability.NoOverrideIsZero | roles/openshift_health_checker/openshift_checks/disk_availability.py:61-89 | with the default empty override, the override bytes are 0 for every host on every path |
| DiskAvailability.ZeroOverrideFallsBack | roles/openshift_health_checker/openshift_checks/disk_availability.py:89-90 | an override that comes to 0 for the host gives the same requirement as no override |
| DiskAvailability.BareNumberOnlyOverridesVar | roles/openshift_health_checker/openshift_checks/disk_availability.py:62-72 | a bare-number override leaves every path other than `/var` at its table requirement |
| DiskAvailability.BareNumberOnVar | roles/openshift_health_checker/openshift_checks/disk_availability.py:65-72 | on `/var` a bare number of GB applies to any host with one of the three roles, and is 0 for hosts with none |
| DiskAvailability.OverrideOutsideRowsIgnored | roles/openshift_health_checker/openshift_checks/disk_availability.py:82-86 | override entries for paths outside the table are never consulted: overrides that agree on the monitored paths give the same verdict |
| DiskAvailability.UpgradeOnlyAffectsVar | roles/openshift_health_checker/openshift_checks/disk_availability.py:96-101 | only the literal context `upgrade`, and only on `/var`, changes a requirement |
| DiskAvailability.StrictestMonotone | roles/openshift_health_checker/openshift_checks/disk_availability.py:84 | a row at least as strict for every role gives a host requirement at least as strict |
| DiskAvailability.UpgradeRelaxesVar | roles/openshift_health_checker/openshift_checks/disk_availability.py:39-45 | without an override, and with the temporary directory anywhere but `/var`, an upgrade never asks for more on `/var` than a first install (`Scenarios.TmpAtVarReversesUpgrade` shows the reversal at `/var`) |
| DiskAvailability.UpgradeRelaxesDeclaredVar | roles/openshift_health_checker/openshift_checks/disk_availability.py:18-45 | on the declared `/var` install row, without an override, an upgrade asks no more of any host than a first install |
| Scenarios.UsrLocalBinResolvesUnderRoot | roles/openshift_health_checker/openshift_checks/disk_availability.py:25-29 | `/usr/local/bin` resolves on any table that mounts `/` with sizes |
| Scenarios.SingleRoleRequirement | roles/openshift_health_checker/openshift_checks/disk_availability.py:84-101 | without an override, a single-role host owes its role's value from the row for its context |
| Scenarios.NodeInstallFailsOnVar | roles/openshift_health_checker/openshift_checks/disk_availability.py:17-22 | with the temporary directory anywhere but `/var`, a node installing on a host whose only mounts are `/` with 50 GB and `/var` with 8 GB fails on `/var` with 8 GB free against 15 GB required |
| Scenarios.NodeUpgradePasses | roles/openshift_health_checker/openshift_checks/disk_availability.py:39-45 | the same node on the same mounts passes in an upgrade, for any normalised absolute temporary directory `/c0/.../cn` of up to 32 components |
| Scenarios.NodeUpgradePassesIfTmpResolves | roles/openshift_health_checker/openshift_checks/disk_availability.py:96-101 | the upgrade case passes for any temporary directory whose mount resolves |
| Scenarios.BareNumberOverrideFailsOnVar | roles/openshift_health_checker/openshift_checks/disk_availability.py:62-72 | for any temporary directory, a master with a bare 3 GB override fails on a 2 GB `/var` against 3 GB, not 40 GB |
| Scenarios.EmptyMountTableRaises | roles/openshift_health_checker/openshift_checks/disk_availability.py:141-146 | with no mounts, the first monitored path raises with an empty set of known mounts, and every listing of that set reads `none` |
| Scenarios.TmpAtVarReversesUpgrade | roles/openshift_health_checker/openshift_checks/disk_availability.py:17-45 | with the temporary directory at `/var` the collapsed `/var` row asks 1 GB of masters and nodes on install, while an upgrade asks 5 GB of a node |

## Left out

- Failure message text: the source formats free and required space as GB with one decimal (`{:.1f}`). Floating-point formatting is not modelled, so `Fail` carries the path and the exact byte counts.
- Upgrade guidance text: the source builds an extra note about lowering the override when an upgrade fails because of it (lines 113-118), but the dict it returns re-formats the base message and drops that note. The model keeps only what is returned, so the note appears nowhere.
- Fractional and negative overrides: the source probes the override with `float()`, so a bare number may be fractional or negative, and so may a numeric string. The model takes override values as whole, non-negative GB (`nat`). A string that `float()` rejects raises an uncaught `ValueError` in the source; the model has no such input.
- Malformed structured overrides: a structured row that is not a mapping fails in the source. That input is not expressible in the model.
- The framework's own `is_active` and variable lookup (`get_var`): not part of this model. The base activation result enters as the boolean `baseActive`, and the host's facts enter as a `Host` value.
- `tempfile.gettempdir()`: depends on the environment, so it is the parameter `tmp`.
- Fact gathering: the re-indexing of the `ansible_mounts` list by mount point, where a later duplicate wins, is taken as already done. The model receives the mount table as a map.
- Orchestration: running the check across hosts and reporting results belong to the framework.
- Non-normalised temporary directories: the lemmas that show a temporary directory resolving cover normalised paths `/c0/.../cn`. A directory with two leading slashes, such as `//tmp`, is covered by the general `FreeBytes` contract, and `Mounts.DoubleSlashPathMissesRoot` shows that every such path raises when `/` is the only mount.
- Row order: the monitored paths are walked in declaration order. That is the iteration order of a Python 3.7+ dict literal.
- Empty group list: Python's `max()` over an empty `group_names` raises `ValueError` after the first path's mount has been looked up. The model returns `Err(EmptyGroupNames)` at the same point.

=== FILE: disk_availability.dfy ===
/**
  The disk availability preflight check: which hosts it applies to, the
  requirement a host owes on each monitored path once operator overrides and
  the upgrade context are taken into account, and the verdict obtained by
  walking the monitored paths in table order and stopping at the first one
  without enough free space.
 */
module DiskAvailability {
  import opened Results
  import opened Mounts
  import opened Requirements

  /**
    The operator's minimum-free-space override, in whole decimal gigabytes:
    either a bare number, the legacy form that applies to `/var` only, or a
    table path -> group name -> GB.
   */
  datatype Override =
    | Uniform(gb: nat)
    | Structured(byPath: map<string, map<string, nat>>)

  /** The default when the operator sets nothing: an empty table. */
  const NoOverride: Override := Structured(map[])

  /** The override as a table: a bare number becomes a `/var` row naming the three roles. */
  function OverrideTable(o: Override): (t: map<string, map<string, nat>>)
    ensures o.Uniform? ==> t.Keys == {"/var"}
    ensures o.Uniform? ==> forall g :: g in t["/var"] <==> RoleOf(g).Some?
    ensures o.Uniform? ==> forall g :: g in t["/var"] ==> t["/var"][g] == o.gb
  {
    match o
    case Uniform(gb) => map["/var" := map[RoleName(Masters) := gb, RoleName(Nodes) := gb, RoleName(Etcd) := gb]]
    case Structured(t) => t
  }

  /** The override's row for `path`, empty when the override does not mention it. */
  function PathOverride(o: Override, path: string): map<string, nat> {
    var t := OverrideTable(o);
    if path in t then t[path] else map[]
  }

  /** The GB the override asks of one group on `path`, 0 when unmentioned. */
  function OverrideGB(o: Override, path: string, group: string): nat {
    var row := PathOverride(o, path);
    if group in row then row[group] else 0
  }

  /** The override for a host on `path` in bytes: its strictest group's GB times 10^9. */
  function OverrideBytes(o: Override, path: string, groups: seq<string>): (b: nat)
    requires |groups| > 0
    ensures b % GB == 0
    ensures forall i :: 0 <= i < |groups| ==> OverrideGB(o, path, groups[i]) * GB <= b
    ensures exists i :: 0 <= i < |groups| && OverrideGB(o, path, groups[i]) * GB == b
  {
    var values := seq(|groups|, i requires 0 <= i < |groups| => OverrideGB(o, path, groups[i]));
    assert forall i :: 0 <= i < |groups| ==> values[i] == OverrideGB(o, path, groups[i]);
    var m := MaxOf(values);
    assert forall i :: 0 <= i < |groups| ==> OverrideGB(o, path, groups[i]) * GB <= m * GB by {
      forall i | 0 <= i < |groups|
        ensures OverrideGB(o, path, groups[i]) * GB <= m * GB
      {
        assert values[i] <= m;
      }
    }
    m * GB
  }

  /** The only context string that selects the upgrade table. */
  const UpgradeContext: string := "upgrade"

  /** The upgrade table replaces the install row for `path`. */
  predicate UsesUpgradeTable(context: string, path: string) {
    context == UpgradeContext && path in UpgradeTable && |UpgradeTable[path]| > 0
  }

  /** The table row that sets the baseline for a monitored path in a given context. */
  function BaselineRow(e: Entry, context: string): map<Role, nat> {
    if UsesUpgradeTable(context, e.path) then UpgradeTable[e.path] else e.byRole
  }

  /**
    The bytes a host must have free on a monitored path. A non-zero override
    wins in every context; otherwise it is the strictest of the host's groups
    in the row for the context (the upgrade row for `/var` during an upgrade,
    the install row everywhere else).
   */
  function Required(e: Entry, groups: seq<string>, o: Override, context: string): (r: nat)
    requires |groups| > 0
    ensures OverrideBytes(o, e.path, groups) != 0 ==> r == OverrideBytes(o, e.path, groups)
    ensures OverrideBytes(o, e.path, groups) == 0 ==> r == Strictest(BaselineRow(e, context), groups)
  {
    var configBytes := OverrideBytes(o, e.path, groups);
    var recommended := if configBytes != 0 then configBytes else Strictest(e.byRole, groups);
    if UsesUpgradeTable(context, e.path) then
      if configBytes != 0 then configBytes else Strictest(UpgradeTable[e.path], groups)
    else
      recommended
  }

  /** The host facts the check reads: its group names, the override and the playbook context. */
  datatype Host = Host(groups: seq<string>, override: Override, context: string)

  /** Passing, or failing on one path with the free and required bytes found there. */
  datatype Verdict = Pass | Fail(path: string, freeBytes: nat, requiredBytes: nat)

  /** What the check raises: an unresolvable mount, or no groups to take the maximum over. */
  datatype CheckError = Unresolvable(cause: MountError) | EmptyGroupNames

  /** The host owes `Required` bytes on the row's path. */
  function RequiredOn(e: Entry, host: Host): nat
    requires |host.groups| > 0
  {
    Required(e, host.groups, host.override, host.context)
  }

  /** How the evaluator learns a path's free bytes: `FreeBytes` over the host's mount table. */
  type Resolver = string -> Result<nat, MountError>

  /** A row the host satisfies: its path resolves and has at least the required bytes free. */
  predicate Adequate(e: Entry, host: Host, free: Resolver) {
    && |host.groups| > 0
    && free(e.path).Ok?
    && free(e.path).value >= RequiredOn(e, host)
  }

  /**
    The rows checked in order: each path's mount is resolved before its
    requirement is computed, and the first path below its requirement ends
    the walk with a failure.
   */
  function EvaluateRows(rows: seq<Entry>, host: Host, free: Resolver): (r: Result<Verdict, CheckError>)
    ensures r == Ok(Pass) <==> forall i :: 0 <= i < |rows| ==> Adequate(rows[i], host, free)
    ensures r.Ok? && r.value.Fail? ==>
      exists i :: 0 <= i < |rows| && rows[i].path == r.value.path
        && |host.groups| > 0
        && free(rows[i].path) == Ok(r.value.freeBytes)
        && r.value.requiredBytes == RequiredOn(rows[i], host)
        && r.value.freeBytes < r.value.requiredBytes
    decreases |rows|
  {
    if |rows| == 0 then Ok(Pass)
    else
      match free(rows[0].path)
      case Err(e) => Err(Unresolvable(e))
      case Ok(bytes) =>
        if |host.groups| == 0 then Err(EmptyGroupNames)
        else
          var required := RequiredOn(rows[0], host);
          if bytes < required then Ok(Fail(rows[0].path, bytes, required))
          else
            var rest := EvaluateRows(rows[1..], host, free);
            assert forall i :: 1 <= i < |rows| ==> rows[i] == rows[1..][i - 1];
            rest
  }

  /** The check's verdict for a host, over the install table with temporary directory `tmp`. */
  function Run(host: Host, mounts: MountTable, tmp: string): (r: Result<Verdict, CheckError>)
    ensures r == Ok(Pass) <==>
      forall i :: 0 <= i < |InstallTable(tmp)| ==> Adequate(InstallTable(tmp)[i], host, Resolve(mounts))
    ensures r.Ok? && r.value.Fail? ==>
      && r.value.path in {"/var", "/usr/local/bin", tmp}
      && FreeBytes(r.value.path, mounts) == Ok(r.value.freeBytes)
      && r.value.freeBytes < r.value.requiredBytes
      && |host.groups| > 0
      && exists i :: 0 <= i < |InstallTable(tmp)| && InstallTable(tmp)[i].path == r.value.path
           && r.value.requiredBytes == RequiredOn(InstallTable(tmp)[i], host)
  {
    EvaluateRows(InstallTable(tmp), host, Resolve(mounts))
  }

  function Resolve(mounts: MountTable): Resolver {
    path => FreeBytes(path, mounts)
  }

  /**
    Whether the check applies: the framework's own predicate holds and the host
    is in a group named somewhere in the install table, which for every
    temporary directory means masters, nodes or etcd.
   */
  predicate IsActive(baseActive: bool, groups: seq<string>, tmp: string)
    ensures IsActive(baseActive, groups, tmp) <==> baseActive && exists i :: 0 <= i < |groups| && RoleOf(groups[i]).Some?
  {
    TableGroupsAreTheRoles(tmp);
    baseActive && exists i :: 0 <= i < |groups| && groups[i] in TableGroups(InstallTable(tmp))
  }

  /** A skipped check, or the result of running it. */
  datatype CheckOutcome = Skipped | Ran(result: Result<Verdict, CheckError>)

  /** The framework's use of the check: run it only when it is active. */
  function Execute(baseActive: bool, host: Host, mounts: MountTable, tmp: string): (out: CheckOutcome)
    ensures out.Skipped? <==> !baseActive || forall i :: 0 <= i < |host.groups| ==> RoleOf(host.groups[i]).None?
    ensures out.Ran? ==> out.result != Err(EmptyGroupNames)
  {
    if IsActive(baseActive, host.groups, tmp) then
      ActiveHostNeverLacksGroups(baseActive, host, mounts, tmp);
      Ran(Run(host, mounts, tmp))
    else Skipped
  }

  // ---- Activation --------------------------------------------------------

  /** An active host has groups, so the run never fails for want of them. */
  lemma ActiveHostNeverLacksGroups(baseActive: bool, host: Host, mounts: MountTable, tmp: string)
    requires IsActive(baseActive, host.groups, tmp)
    ensures Run(host, mounts, tmp) != Err(EmptyGroupNames)
  {
    GroupsPresentNoGroupError(InstallTable(tmp), host, Resolve(mounts));
  }

  /** The empty-groups error can only arise for a host without groups. */
  lemma {:induction false} GroupsPresentNoGroupError(rows: seq<Entry>, host: Host, free: Resolver)
    requires |host.groups| > 0
    ensures EvaluateRows(rows, host, free) != Err(EmptyGroupNames)
    decreases |rows|
  {
    if |rows| > 0 {
      GroupsPresentNoGroupError(rows[1..], host, free);
    }
  }

  // ---- Ordered evaluation ------------------------------------------------

  /** A satisfied first row is passed over: the verdict is that of the remaining rows. */
  lemma SkipAdequateRow(rows: seq<Entry>, host: Host, free: Resolver)
    requires |rows| > 0 && Adequate(rows[0], host, free)
    ensures EvaluateRows(rows, host, free) == EvaluateRows(rows[1..], host, free)
  {
  }

  /** Satisfied rows before `i` are satisfied rows before `i - 1` once the first row is dropped. */
  lemma AdequatePrefixShifts(rows: seq<Entry>, host: Host, free: Resolver, i: nat)
    requires 0 < i <= |rows|
    requires forall j :: 0 <= j < i ==> Adequate(rows[j], host, free)
    ensures forall j :: 0 <= j < i - 1 ==> Adequate(rows[1..][j], host, free)
  {
    forall j | 0 <= j < i - 1
      ensures Adequate(rows[1..][j], host, free)
    {
      assert rows[1..][j] == rows[j + 1];
    }
  }

  /**
    When every earlier row is satisfied and row `i` resolves to fewer free
    bytes than required, the verdict is a failure on row `i`, whatever the
    later rows hold.
   */
  lemma {:induction false} FirstDeficientRowFails(rows: seq<Entry>, host: Host, free: Resolver, i: nat)
    requires i < |rows| && |host.groups| > 0
    requires forall j :: 0 <= j < i ==> Adequate(rows[j], host, free)
    requires free(rows[i].path).Ok?
    requires free(rows[i].path).value < RequiredOn(rows[i], host)
    ensures EvaluateRows(rows, host, free)
         == Ok(Fail(rows[i].path, free(rows[i].path).value, RequiredOn(rows[i], host)))
    decreases i
  {
    if i > 0 {
      SkipAdequateRow(rows, host, free);
      AdequatePrefixShifts(rows, host, free, i);
      FirstDeficientRowFails(rows[1..], host, free, i - 1);
    }
  }

  /**
    When every earlier row is satisfied and row `i`'s path cannot be resolved,
    the check raises that resolution error, even if the host owes nothing there.
   */
  lemma {:induction false} FirstUnresolvedRowRaises(rows: seq<Entry>, host: Host, free: Resolver, i: nat)
    requires i < |rows|
    requires forall j :: 0 <= j < i ==> Adequate(rows[j], host, free)
    requires free(rows[i].path).Err?
    ensures EvaluateRows(rows, host, free) == Err(Unresolvable(free(rows[i].path).error))
    decreases i
  {
    if i > 0 {
      SkipAdequateRow(rows, host, free);
      AdequatePrefixShifts(rows, host, free, i);
      FirstUnresolvedRowRaises(rows[1..], host, free, i - 1);
    }
  }

  /** A path with exactly the required bytes free is satisfied: only strictly less fails. */
  lemma ExactFitPasses(e: Entry, host: Host, free: Resolver)
    requires |host.groups| > 0
    requires free(e.path) == Ok(RequiredOn(e, host))
    ensures Adequate(e, host, free)
  {
  }

  // ---- Override precedence -----------------------------------------------

  /** An override whose bytes come to 0 for this host is the same as no override. */
  lemma {:induction false} ZeroOverrideFallsBack(e: Entry, groups: seq<string>, o: Override, context: string)
    requires |groups| > 0
    requires OverrideBytes(o, e.path, groups) == 0
    ensures Required(e, groups, o, context) == Required(e, groups, NoOverride, context)
  {
    NoOverrideIsZero(e.path, groups);
  }

  /** Without an override no host owes anything extra on any path. */
  lemma NoOverrideIsZero(path: string, groups: seq<string>)
    requires |groups| > 0
    ensures OverrideBytes(NoOverride, path, groups) == 0
  {
    var k :| 0 <= k < |groups| && OverrideGB(NoOverride, path, groups[k]) * GB == OverrideBytes(NoOverride, path, groups);
  }

  /** A bare-number override leaves every path other than `/var` at its table requirement. */
  lemma {:induction false} BareNumberOnlyOverridesVar(e: Entry, groups: seq<string>, gb: nat, context: string)
    requires |groups| > 0 && e.path != "/var"
    ensures OverrideBytes(Uniform(gb), e.path, groups) == 0
    ensures Required(e, groups, Uniform(gb), context) == Required(e, groups, NoOverride, context)
  {
    var k :| 0 <= k < |groups| && OverrideGB(Uniform(gb), e.path, groups[k]) * GB == OverrideBytes(Uniform(gb), e.path, groups);
    ZeroOverrideFallsBack(e, groups, Uniform(gb), context);
  }

  /** On `/var` a bare number of GB applies to any host in one of the three role groups. */
  lemma {:induction false} BareNumberOnVar(groups: seq<string>, gb: nat)
    requires |groups| > 0
    ensures (exists i :: 0 <= i < |groups| && RoleOf(groups[i]).Some?) ==> OverrideBytes(Uniform(gb), "/var", groups) == gb * GB
    ensures (forall i :: 0 <= i < |groups| ==> RoleOf(groups[i]).None?) ==> OverrideBytes(Uniform(gb), "/var", groups) == 0
  {
    var b := OverrideBytes(Uniform(gb), "/var", groups);
    var k :| 0 <= k < |groups| && OverrideGB(Uniform(gb), "/var", groups[k]) * GB == b;
    if exists i :: 0 <= i < |groups| && RoleOf(groups[i]).Some? {
      var i :| 0 <= i < |groups| && RoleOf(groups[i]).Some?;
      assert OverrideGB(Uniform(gb), "/var", groups[i]) == gb;
    }
  }

  /** Whether the override mentions the same requirements as another on one path. */
  predicate SameOverrideOn(o1: Override, o2: Override, path: string) {
    PathOverride(o1, path) == PathOverride(o2, path)
  }

  /**
    Override entries for paths outside the table are never consulted: two
    overrides that agree on the monitored paths give the same verdict.
   */
  lemma {:induction false} OverrideOutsideRowsIgnored(rows: seq<Entry>, host: Host, o: Override, free: Resolver)
    requires forall i :: 0 <= i < |rows| ==> SameOverrideOn(host.override, o, rows[i].path)
    ensures EvaluateRows(rows, host, free) == EvaluateRows(rows, host.(override := o), free)
    decreases |rows|
  {
    if |rows| > 0 && |host.groups| > 0 {
      var p := rows[0].path;
      assert forall g :: OverrideGB(host.override, p, g) == OverrideGB(o, p, g);
      var a := seq(|host.groups|, i requires 0 <= i < |host.groups| => OverrideGB(host.override, p, host.groups[i]));
      var b := seq(|host.groups|, i requires 0 <= i < |host.groups| => OverrideGB(o, p, host.groups[i]));
      assert a == b;
      assert OverrideBytes(host.override, p, host.groups) == OverrideBytes(o, p, host.groups);
      assert forall i :: 0 <= i < |rows| - 1 ==> rows[1..][i] == rows[i + 1];
      OverrideOutsideRowsIgnored(rows[1..], host, o, free);
    }
  }

  // ---- Upgrade context ---------------------------------------------------

  /** Only the literal `upgrade` context, and only on `/var`, changes a requirement. */
  lemma UpgradeOnlyAffectsVar(e: Entry, groups: seq<string>, o: Override, context: string)
    requires |groups| > 0
    requires context != UpgradeContext || e.path != "/var"
    ensures Required(e, groups, o, context) == Required(e, groups, o, "")
  {
  }

  /** A stricter row per group gives a stricter host requirement. */
  lemma StrictestMonotone(a: map<Role, nat>, b: map<Role, nat>, groups: seq<string>)
    requires |groups| > 0
    requires forall r :: r in a ==> r in b && a[r] <= b[r]
    ensures Strictest(a, groups) <= Strictest(b, groups)
  {
    var i :| 0 <= i < |groups| && GroupValue(a, groups[i]) == Strictest(a, groups);
    assert GroupValue(a, groups[i]) <= GroupValue(b, groups[i]);
  }

  /** Without an override, an upgrade never asks for more on `/var` than a first install. */
  lemma UpgradeRelaxesVar(groups: seq<string>, o: Override, tmp: string)
    requires |groups| > 0 && tmp != "/var"
    requires OverrideBytes(o, "/var", groups) == 0
    ensures Required(InstallTable(tmp)[0], groups, o, UpgradeContext) <= Required(InstallTable(tmp)[0], groups, o, "")
  {
    assert InstallTable(tmp)[0] == Entry("/var", VarInstall);
    UpgradeRelaxesDeclaredVar(groups, o);
  }

  /** The comparison on the declared `/var` row, whatever the temporary directory. */
  lemma UpgradeRelaxesDeclaredVar(groups: seq<string>, o: Override)
    requires |groups| > 0
    requires OverrideBytes(o, "/var", groups) == 0
    ensures Required(Entry("/var", VarInstall), groups, o, UpgradeContext) <= Required(Entry("/var", VarInstall), groups, o, "")
  {
    var e := Entry("/var", VarInstall);
    UpgradeTableRelaxesVarOnly();
    assert UsesUpgradeTable(UpgradeContext, "/var") && !UsesUpgradeTable("", "/var");
    StrictestMonotone(UpgradeTable["/var"], VarInstall, groups);
  }
}

=== FILE: mounts.dfy ===
/**
  Resolving a path to the free space of its enclosing mount point: ascend
  from the path through its ancestors, at most `MaxDepth` times, until a
  mounted path is reached, and report that mount's `size_available`.
 */
module Mounts {
  import opened Results
  import opened PosixPath
  import opened StringOrder

  /** Bound on the upward steps, so that a table without `/` cannot make the ascent run forever. */
  const MaxDepth: nat := 32

  /** Mount point -> its `size_available` in bytes, `None` when the mount record lacks that field. */
  type MountTable = map<string, Option<nat>>

  /** The check's exception for a path whose free space cannot be determined. */
  datatype MountError = MountError(path: string, known: set<string>)

  /** The `k`-th ancestor of `p` is mounted and no nearer one is. */
  ghost predicate IsFirstMount(mounts: MountTable, p: string, k: nat) {
    Ancestor(p, k) in mounts && forall i :: 0 <= i < k ==> Ancestor(p, i) !in mounts
  }

  /** No ancestor of `p` up to the `depth`-th is mounted. */
  ghost predicate NoMountWithin(mounts: MountTable, p: string, depth: nat) {
    forall i :: 0 <= i <= depth ==> Ancestor(p, i) !in mounts
  }

  /**
    The path the ascent stops at: `p` itself when mounted, otherwise the
    ascent continues from `Dirname(p)` while steps remain.
   */
  function Ascend(mounts: MountTable, p: string, depth: nat): (mp: string)
    ensures mp in mounts ==> exists k :: 0 <= k <= depth && mp == Ancestor(p, k) && IsFirstMount(mounts, p, k)
    ensures mp !in mounts ==> mp == Ancestor(p, depth) && NoMountWithin(mounts, p, depth)
    decreases depth
  {
    if p in mounts || depth == 0 then
      assert Ancestor(p, 0) == p;
      assert p in mounts ==> IsFirstMount(mounts, p, 0);
      p
    else
      var mp := Ascend(mounts, Dirname(p), depth - 1);
      assert mp in mounts ==> exists k :: 0 <= k <= depth && mp == Ancestor(p, k) && IsFirstMount(mounts, p, k) by {
        if mp in mounts {
          var k :| 0 <= k <= depth - 1 && mp == Ancestor(Dirname(p), k) && IsFirstMount(mounts, Dirname(p), k);
          FirstMountShift(mounts, p, k);
        }
      }
      assert mp !in mounts ==> mp == Ancestor(p, depth) && NoMountWithin(mounts, p, depth) by {
        if mp !in mounts {
          NoMountShift(mounts, p, depth - 1);
        }
      }
      mp
  }

  /** A first mount seen from the parent is one step further from the child. */
  lemma FirstMountShift(mounts: MountTable, p: string, k: nat)
    requires p !in mounts && IsFirstMount(mounts, Dirname(p), k)
    ensures Ancestor(p, k + 1) == Ancestor(Dirname(p), k)
    ensures IsFirstMount(mounts, p, k + 1)
  {
    forall i | 0 < i < k + 1
      ensures Ancestor(p, i) !in mounts
    {
      assert Ancestor(p, i) == Ancestor(Dirname(p), i - 1);
    }
  }

  /** An unmounted child of an ancestry with no mount stays unmounted one step further. */
  lemma NoMountShift(mounts: MountTable, p: string, d: nat)
    requires p !in mounts && NoMountWithin(mounts, Dirname(p), d)
    ensures Ancestor(p, d + 1) == Ancestor(Dirname(p), d)
    ensures NoMountWithin(mounts, p, d + 1)
  {
    forall i | 0 < i <= d + 1
      ensures Ancestor(p, i) !in mounts
    {
      assert Ancestor(p, i) == Ancestor(Dirname(p), i - 1);
    }
  }

  /** At most one ancestor index is the first mounted one. */
  lemma FirstMountUnique(mounts: MountTable, p: string, k: nat, k': nat)
    requires IsFirstMount(mounts, p, k) && IsFirstMount(mounts, p, k')
    ensures k == k'
  {
  }

  /**
    The free bytes of the mount enclosing `path`, or the check's exception when
    no ancestor within `MaxDepth` steps is mounted or the mount reached has no
    recorded free space.
   */
  function FreeBytes(path: string, mounts: MountTable): (r: Result<nat, MountError>)
    ensures r.Ok? <==> exists k :: 0 <= k <= MaxDepth && IsFirstMount(mounts, path, k) && mounts[Ancestor(path, k)].Some?
    ensures r.Ok? ==> exists k :: 0 <= k <= MaxDepth && IsFirstMount(mounts, path, k) && mounts[Ancestor(path, k)] == Some(r.value)
    ensures r.Err? ==> r.error == MountError(path, mounts.Keys)
  {
    var mp := Ascend(mounts, path, MaxDepth);
    if mp in mounts && mounts[mp].Some? then Ok(mounts[mp].value)
    else
      assert forall k :: 0 <= k <= MaxDepth && IsFirstMount(mounts, path, k) ==> Ancestor(path, k) == mp by {
        forall k | 0 <= k <= MaxDepth && IsFirstMount(mounts, path, k)
          ensures Ancestor(path, k) == mp
        {
          var k' :| 0 <= k' <= MaxDepth && mp == Ancestor(path, k') && IsFirstMount(mounts, path, k');
          FirstMountUnique(mounts, path, k, k');
        }
      }
      Err(MountError(path, mounts.Keys))
  }

  /** The result is decided by the first mounted ancestor within the bound. */
  lemma FreeBytesAtFirstMount(mounts: MountTable, path: string, k: nat)
    requires k <= MaxDepth && IsFirstMount(mounts, path, k)
    ensures mounts[Ancestor(path, k)].Some? ==> FreeBytes(path, mounts) == Ok(mounts[Ancestor(path, k)].value)
    ensures mounts[Ancestor(path, k)].None? ==> FreeBytes(path, mounts) == Err(MountError(path, mounts.Keys))
  {
    var r := FreeBytes(path, mounts);
    if r.Ok? {
      var k' :| 0 <= k' <= MaxDepth && IsFirstMount(mounts, path, k') && mounts[Ancestor(path, k')] == Some(r.value);
      FirstMountUnique(mounts, path, k, k');
    }
  }

  /** A mounted path is its own mount point: no ascent happens. */
  lemma MountedPathResolvesDirectly(mounts: MountTable, path: string)
    requires path in mounts
    ensures FreeBytes(path, mounts) == if mounts[path].Some? then Ok(mounts[path].value) else Err(MountError(path, mounts.Keys))
  {
    assert Ancestor(path, 0) == path;
    FreeBytesAtFirstMount(mounts, path, 0);
  }

  /** When no ancestor within the bound is mounted, resolution fails. */
  lemma UnmountedAncestryFails(mounts: MountTable, path: string)
    requires NoMountWithin(mounts, path, MaxDepth)
    ensures FreeBytes(path, mounts) == Err(MountError(path, mounts.Keys))
  {
  }

  /**
    With `/` mounted and every mount carrying its free space, an absolute path
    of at most `MaxDepth` components always resolves.
   */
  lemma RootedTableResolvesShallowPaths(mounts: MountTable, cs: seq<string>)
    requires AllComponents(cs) && |cs| <= MaxDepth
    requires "/" in mounts
    requires forall m :: m in mounts ==> mounts[m].Some?
    ensures FreeBytes(Join(cs), mounts).Ok?
  {
    var p := Join(cs);
    AncestorOfJoin(cs, |cs|);
    assert cs[..0] == [];
    assert Ancestor(p, |cs|) in mounts;
    var k := FirstMountedIndex(mounts, p, |cs|);
    FreeBytesAtFirstMount(mounts, p, k);
  }

  /** Resolved free space is the free space of some listed mount, so it inherits any bound they all share. */
  lemma FreeBytesWithinMounts(mounts: MountTable, path: string, lo: nat)
    requires forall m :: m in mounts ==> mounts[m].Some? && mounts[m].value >= lo
    requires FreeBytes(path, mounts).Ok?
    ensures FreeBytes(path, mounts).value >= lo
  {
    var k :| 0 <= k <= MaxDepth && IsFirstMount(mounts, path, k) && mounts[Ancestor(path, k)] == Some(FreeBytes(path, mounts).value);
  }

  /** The least index up to `n` whose ancestor is mounted, given that the `n`-th one is. */
  lemma {:induction false} FirstMountedIndex(mounts: MountTable, p: string, n: nat) returns (k: nat)
    requires Ancestor(p, n) in mounts
    ensures k <= n && IsFirstMount(mounts, p, k)
    decreases n
  {
    if forall i :: 0 <= i < n ==> Ancestor(p, i) !in mounts {
      k := n;
    } else {
      var i :| 0 <= i < n && Ancestor(p, i) in mounts;
      k := FirstMountedIndex(mounts, p, i);
    }
  }

  /**
    With only `/` mounted, a normalised absolute path of more than `MaxDepth` components
    cannot be resolved: the bound stops the ascent before the root.
   */
  lemma DeepPathEscapesBound(mounts: MountTable, cs: seq<string>)
    requires AllComponents(cs) && |cs| > MaxDepth
    requires mounts.Keys == {"/"}
    ensures FreeBytes(Join(cs), mounts).Err?
  {
    var p := Join(cs);
    forall i | 0 <= i <= MaxDepth
      ensures Ancestor(p, i) !in mounts
    {
      AncestorOfJoin(cs, i);
      var prefix := cs[..|cs| - i];
      assert AllComponents(prefix);
    }
  }

  /**
    With only `/` mounted, a path with two leading slashes, such as `//tmp`,
    never reaches that mount: every ancestor keeps both slashes, so none is `/`.
   */
  lemma DoubleSlashPathMissesRoot(mounts: MountTable, p: string)
    requires mounts.Keys == {"/"}
    requires DoubleLead(p)
    ensures FreeBytes(p, mounts) == Err(MountError(p, {"/"}))
  {
    forall i | 0 <= i <= MaxDepth
      ensures Ancestor(p, i) !in mounts
    {
      AncestorKeepsDoubleLead(p, i);
    }
    UnmountedAncestryFails(mounts, p);
  }

  /** Mount paths shown in double quotes. */
  function Quoted(s: string): string {
    "\"" + s + "\""
  }

  /** The quoted names separated by `, `. */
  function JoinQuoted(names: seq<string>): (text: string)
    ensures |names| == 0 <==> text == ""
    ensures |names| > 0 ==> |text| >= 2 && text[0] == '"' && text[|text| - 1] == '"'
  {
    if |names| == 0 then ""
    else if |names| == 1 then Quoted(names[0])
    else Quoted(names[0]) + ", " + JoinQuoted(names[1..])
  }

  /** The diagnostic listing of mount points: the quoted names, or `none` when there are none. */
  function KnownMountsText(names: seq<string>): (text: string)
    ensures text == "none" <==> |names| == 0
  {
    var joined := JoinQuoted(names);
    if |joined| == 0 then "none" else joined
  }

  /** A listing of an empty mount table, in any order, reads `none`. */
  lemma EmptyTableListsNone(mounts: MountTable, listed: seq<string>)
    requires |mounts| == 0
    requires forall m :: m in listed <==> m in mounts
    ensures KnownMountsText(listed) == "none"
  {
    assert forall i :: 0 <= i < |listed| ==> listed[i] in listed;
  }

  /** The words before the path in the exception's message. */
  const ErrorLead: string := "Unable to determine disk availability for \""

  /**
    The exception's message: it opens with the path, and it closes with
    `none.` exactly when no mount point is known, because a listed name is
    always followed by its closing quote.
   */
  function ErrorText(path: string, names: seq<string>): (text: string)
    ensures |text| > |ErrorLead| + |path| + 5
    ensures text[..|ErrorLead|] == ErrorLead
    ensures text[|ErrorLead|..|ErrorLead| + |path|] == path
    ensures |names| == 0 <==> text[|text| - 5..] == "none."
  {
    var listing := KnownMountsText(names);
    var text := ErrorLead + path + "\". Known mount points: " + listing + ".";
    if |names| == 0 then
      assert text[|text| - 5..] == listing + ".";
      text
    else
      assert text[|text| - 2] == listing[|listing| - 1] == '"';
      text
  }

  /** The exception's message, listing the known mount points in sorted order. */
  method Describe(e: MountError) returns (text: string, listed: seq<string>)
    ensures Sorted(listed) && Distinct(listed)
    ensures forall m :: m in listed <==> m in e.known
    ensures text == ErrorText(e.path, listed)
    ensures |e.known| == 0 <==> KnownMountsText(listed) == "none"
  {
    listed := SortSet(e.known);
    text := ErrorText(e.path, listed);
  }
}

=== FILE: posix_path.dfy ===
/**
  The part of POSIX path handling that the disk check relies on: `dirname`,
  repeated ascent through a path's ancestors, and absolute paths built from
  components, whose ancestors are known in closed form.
 */
module PosixPath {

  /** Every character of `s` is a slash (vacuously so for the empty string). */
  predicate AllSlashes(s: string) {
    forall k :: 0 <= k < |s| ==> s[k] == '/'
  }

  /** No character of `s` is a slash. */
  predicate NoSlash(s: string) {
    forall k :: 0 <= k < |s| ==> s[k] != '/'
  }

  /** One past the position of the last slash of `p`, or 0 when `p` has none. */
  function HeadLength(p: string): (i: nat)
    ensures i <= |p|
  {
    if |p| == 0 then 0
    else if p[|p| - 1] == '/' then |p|
    else HeadLength(p[..|p| - 1])
  }

  /** `HeadLength` finds the last slash: it ends the head, and none follows it. */
  lemma {:induction false} HeadLengthSpec(p: string)
    ensures HeadLength(p) > 0 ==> p[HeadLength(p) - 1] == '/'
    ensures NoSlash(p[HeadLength(p)..])
    decreases |p|
  {
    if |p| > 0 && p[|p| - 1] != '/' {
      var q := p[..|p| - 1];
      HeadLengthSpec(q);
      var i := HeadLength(q);
      assert forall k :: i <= k < |p| - 1 ==> p[k] == q[i..][k - i];
    }
  }

  /** `s` without its trailing slashes. */
  function RStripSlashes(s: string): (r: string)
    ensures |r| <= |s|
  {
    if |s| > 0 && s[|s| - 1] == '/' then RStripSlashes(s[..|s| - 1]) else s
  }

  /** `RStripSlashes` removes exactly the trailing run of slashes. */
  lemma {:induction false} RStripSlashesSpec(s: string)
    ensures RStripSlashes(s) <= s
    ensures |RStripSlashes(s)| == 0 || RStripSlashes(s)[|RStripSlashes(s)| - 1] != '/'
    ensures AllSlashes(s[|RStripSlashes(s)|..])
    decreases |s|
  {
    if |s| > 0 && s[|s| - 1] == '/' {
      var q := s[..|s| - 1];
      RStripSlashesSpec(q);
      var r := RStripSlashes(q);
      assert forall k :: |r| <= k < |s| - 1 ==> s[k] == q[|r|..][k - |r|];
    }
  }

  /**
    The directory part of `p`: everything up to and including its last slash,
    with trailing slashes then removed unless nothing but slashes is left.
   */
  function Dirname(p: string): (r: string)
    ensures |r| <= |p|
    ensures |p| > 0 && p[0] == '/' ==> |r| > 0 && r[0] == '/'
  {
    HeadLengthSpec(p);
    var head := p[..HeadLength(p)];
    if |head| > 0 && !AllSlashes(head) then
      RStripSlashesSpec(head);
      RStripSlashes(head)
    else head
  }

  /** The parent is a prefix of the path, and only the empty path and all-slash paths are their own parent. */
  lemma DirnameSpec(p: string)
    ensures Dirname(p) <= p
    ensures Dirname(p) == p <==> AllSlashes(p)
  {
    var head := p[..HeadLength(p)];
    HeadLengthSpec(p);
    if |head| > 0 && !AllSlashes(head) {
      RStripSlashesSpec(head);
      var r := RStripSlashes(head);
      assert r != p by {
        if |head| == |p| {
          assert head == p && p[|p| - 1] == '/';
        }
      }
    } else {
      assert AllSlashes(p) ==> HeadLength(p) == |p|;
    }
  }

  /** The `k`-th ancestor of `p`: `Dirname` applied `k` times. */
  function Ancestor(p: string, k: nat): string
    decreases k
  {
    if k == 0 then p else Ancestor(Dirname(p), k - 1)
  }

  /** `p` starts with two slashes, which POSIX leaves implementation-defined and `dirname` keeps. */
  predicate DoubleLead(p: string) {
    |p| >= 2 && p[0] == '/' && p[1] == '/'
  }

  /** The parent of a path with two leading slashes has them too. */
  lemma DirnameKeepsDoubleLead(p: string)
    requires DoubleLead(p)
    ensures DoubleLead(Dirname(p))
  {
    HeadLengthSpec(p);
    var head := p[..HeadLength(p)];
    if |head| > 0 && !AllSlashes(head) {
      RStripSlashesSpec(head);
    }
  }

  /** Every ancestor of a path with two leading slashes has them too. */
  lemma {:induction false} AncestorKeepsDoubleLead(p: string, k: nat)
    requires DoubleLead(p)
    ensures DoubleLead(Ancestor(p, k))
    decreases k
  {
    if k > 0 {
      DirnameKeepsDoubleLead(p);
      AncestorKeepsDoubleLead(Dirname(p), k - 1);
    }
  }

  /** A single path component: non-empty and free of slashes. */
  predicate IsComponent(c: string) {
    |c| > 0 && NoSlash(c)
  }

  predicate AllComponents(cs: seq<string>) {
    forall i :: 0 <= i < |cs| ==> IsComponent(cs[i])
  }

  /** The absolute path `/c0/c1/.../cn`, or `/` for no components. */
  function Join(cs: seq<string>): (p: string)
    ensures |p| > 0 && p[0] == '/'
    ensures AllComponents(cs) && |cs| > 0 ==> |p| >= 2 && p[|p| - 1] != '/'
  {
    if |cs| == 0 then "/"
    else if |cs| == 1 then "/" + cs[0]
    else Join(cs[..|cs| - 1]) + "/" + cs[|cs| - 1]
  }

  /** Appending a slash and a slash-free name moves the last slash to just before that name. */
  lemma {:induction false} HeadLengthOfAppend(s: string, name: string)
    requires NoSlash(name)
    ensures HeadLength(s + "/" + name) == |s| + 1
    decreases |name|
  {
    var p := s + "/" + name;
    if |name| == 0 {
      assert p[|p| - 1] == '/';
    } else {
      var shorter := name[..|name| - 1];
      assert p[..|p| - 1] == s + "/" + shorter;
      HeadLengthOfAppend(s, shorter);
    }
  }

  lemma StripOneSlash(s: string)
    requires |s| > 0 && s[|s| - 1] != '/'
    ensures RStripSlashes(s + "/") == s
  {
    assert (s + "/")[..|s|] == s;
  }

  /** The parent of a single-component absolute path is the root. */
  lemma DirnameOfTopLevel(name: string)
    requires IsComponent(name)
    ensures Dirname("/" + name) == "/"
  {
    assert "/" + name == [] + "/" + name;
    HeadLengthOfAppend([], name);
    assert ("/" + name)[..1] == "/";
  }

  /** The parent of `parent/name` is `parent`, for a parent that does not end in a slash. */
  lemma DirnameOfChild(parent: string, name: string)
    requires |parent| > 0 && parent[|parent| - 1] != '/'
    requires NoSlash(name)
    ensures Dirname(parent + "/" + name) == parent
  {
    var p := parent + "/" + name;
    HeadLengthOfAppend(parent, name);
    assert p[..|parent| + 1] == parent + "/";
    assert !AllSlashes(parent + "/") by {
      assert (parent + "/")[|parent| - 1] == parent[|parent| - 1];
    }
    StripOneSlash(parent);
  }

  /** The parent of `/c0/.../cn` is `/c0/.../c(n-1)`: `Dirname` undoes one `Join` step. */
  lemma DirnameOfJoin(cs: seq<string>)
    requires AllComponents(cs) && |cs| > 0
    ensures Dirname(Join(cs)) == Join(cs[..|cs| - 1])
  {
    if |cs| == 1 {
      DirnameOfTopLevel(cs[0]);
    } else {
      assert AllComponents(cs[..|cs| - 1]);
      DirnameOfChild(Join(cs[..|cs| - 1]), cs[|cs| - 1]);
    }
  }

  /** `DirnameOfJoin` for the first `j` components. */
  lemma DirnameOfJoinPrefix(cs: seq<string>, j: nat)
    requires AllComponents(cs) && 0 < j <= |cs|
    ensures Dirname(Join(cs[..j])) == Join(cs[..j - 1])
  {
    var prefix := cs[..j];
    assert AllComponents(prefix);
    DirnameOfJoin(prefix);
    assert prefix[..j - 1] == cs[..j - 1];
  }

  /** In a chain of paths each the parent of the next, `k` ascents from entry `top` reach entry `top - k`. */
  lemma {:induction false} AncestorOfChain(chain: seq<string>, top: nat, k: nat)
    requires forall j {:trigger Dirname(chain[j])} :: 0 < j < |chain| ==> Dirname(chain[j]) == chain[j - 1]
    requires k <= top < |chain|
    ensures Ancestor(chain[top], k) == chain[top - k]
    decreases k
  {
    if k > 0 {
      assert Ancestor(chain[top], k) == Ancestor(Dirname(chain[top]), k - 1);
      AncestorOfChain(chain, top - 1, k - 1);
    }
  }

  /** The `k`-th ancestor of `/c0/.../cn` drops exactly the last `k` components. */
  lemma AncestorOfJoin(cs: seq<string>, k: nat)
    requires AllComponents(cs) && k <= |cs|
    ensures Ancestor(Join(cs), k) == Join(cs[..|cs| - k])
  {
    var chain := JoinChain(cs);
    AncestorOfChain(chain, |cs|, k);
  }

  /** The paths `Join(cs[..j])` for `j` up to `|cs|`, each the parent of the next. */
  lemma JoinChain(cs: seq<string>) returns (chain: seq<string>)
    requires AllComponents(cs)
    ensures |chain| == |cs| + 1
    ensures forall j :: 0 <= j < |chain| ==> chain[j] == Join(cs[..j])
    ensures forall j {:trigger Dirname(chain[j])} :: 0 < j < |chain| ==> Dirname(chain[j]) == chain[j - 1]
    ensures chain[|cs|] == Join(cs)
  {
    chain := seq(|cs| + 1, j requires 0 <= j <= |cs| => Join(cs[..j]));
    forall j | 0 < j < |chain|
      ensures Dirname(chain[j]) == chain[j - 1]
    {
      DirnameOfJoinPrefix(cs, j);
    }
    assert cs[..|cs|] == cs;
  }

  /** `/`, `//` and every other all-slash path are their own parent, so ascending from one never leaves it. */
  lemma {:induction false} AncestorOfAllSlashes(s: string, k: nat)
    requires AllSlashes(s)
    ensures Ancestor(s, k) == s
    decreases k
  {
    if k > 0 {
      DirnameSpec(s);
      AncestorOfAllSlashes(s, k - 1);
    }
  }
}

=== FILE: requirements.dfy ===
/**
  The recommended free space per monitored path and host role, for a first
  install and for an in-place upgrade, and the strictest-role rule that turns
  a host's groups into one byte count.
 */
module Requirements {
  import opened Results

  /** The host roles that carry disk recommendations. */
  datatype Role = Masters | Nodes | Etcd

  /** The inventory group name of a role. */
  function RoleName(r: Role): string {
    match r
    case Masters => "masters"
    case Nodes => "nodes"
    case Etcd => "etcd"
  }

  /** The role an inventory group name denotes, if any; other groups carry no recommendation. */
  function RoleOf(group: string): (r: Option<Role>)
    ensures r.Some? ==> RoleName(r.value) == group
    ensures r.None? ==> forall role: Role :: RoleName(role) != group
  {
    if group == "masters" then Some(Masters)
    else if group == "nodes" then Some(Nodes)
    else if group == "etcd" then Some(Etcd)
    else None
  }

  /** Decimal gigabyte: overrides are given in GB and converted with this factor. */
  const GB: nat := 1_000_000_000

  /** One monitored path with its per-role minimum free bytes. */
  datatype Entry = Entry(path: string, byRole: map<Role, nat>)

  /** The same requirement for every role. */
  function Uniformly(bytes: nat): map<Role, nat> {
    map[Masters := bytes, Nodes := bytes, Etcd := bytes]
  }

  const VarInstall: map<Role, nat> := map[Masters := 40 * GB, Nodes := 15 * GB, Etcd := 20 * GB]

  /**
    The install table in declaration order: `/var`, `/usr/local/bin`, then the
    temporary directory `tmp`. A temporary directory equal to one of the first
    two keys does not add a row: that row keeps its position and takes the
    temporary directory's values, as a dictionary literal with a repeated key does.
   */
  function InstallTable(tmp: string): (t: seq<Entry>)
    ensures 2 <= |t| <= 3
    ensures t[0].path == "/var" && t[1].path == "/usr/local/bin"
    ensures forall i, j :: 0 <= i < j < |t| ==> t[i].path != t[j].path
    ensures forall i :: 0 <= i < |t| ==> t[i].byRole.Keys == {Masters, Nodes, Etcd}
    ensures exists i :: 0 <= i < |t| && t[i].path == tmp && t[i].byRole == Uniformly(GB)
    ensures forall i :: 0 <= i < |t| ==> t[i].path in {"/var", "/usr/local/bin", tmp}
  {
    if tmp == "/var" then
      [Entry("/var", Uniformly(GB)), Entry("/usr/local/bin", Uniformly(GB))]
    else if tmp == "/usr/local/bin" then
      [Entry("/var", VarInstall), Entry("/usr/local/bin", Uniformly(GB))]
    else
      var t := [Entry("/var", VarInstall), Entry("/usr/local/bin", Uniformly(GB)), Entry(tmp, Uniformly(GB))];
      assert t[2].path == tmp;
      t
  }

  /** The upgrade table: only `/var` has an upgrade-specific requirement. */
  const UpgradeTable: map<string, map<Role, nat>> :=
    map["/var" := map[Masters := 10 * GB, Nodes := 5 * GB, Etcd := 5 * GB]]

  /**
    Only `/var` has an upgrade row, it lists the same three roles as the
    install row, and it asks every role for less than a first install does.
   */
  lemma UpgradeTableRelaxesVarOnly()
    ensures UpgradeTable.Keys == {"/var"}
    ensures UpgradeTable["/var"].Keys == VarInstall.Keys
    ensures forall r :: r in UpgradeTable["/var"] ==> UpgradeTable["/var"][r] < VarInstall[r]
  {
  }

  /** The largest element of a non-empty sequence. */
  function MaxOf(xs: seq<nat>): (m: nat)
    requires |xs| > 0
    ensures forall i :: 0 <= i < |xs| ==> xs[i] <= m
    ensures exists i :: 0 <= i < |xs| && xs[i] == m
  {
    if |xs| == 1 then xs[0]
    else
      var rest := MaxOf(xs[1..]);
      if xs[0] >= rest then xs[0] else rest
  }

  /** What a table row asks of one group: its role's value, 0 for unlisted groups. */
  function GroupValue(byRole: map<Role, nat>, group: string): nat {
    match RoleOf(group)
    case Some(r) => if r in byRole then byRole[r] else 0
    case None => 0
  }

  /** The requirement of a row for a host: the strictest among the host's groups. */
  function Strictest(byRole: map<Role, nat>, groups: seq<string>): (r: nat)
    requires |groups| > 0
    ensures forall i :: 0 <= i < |groups| ==> GroupValue(byRole, groups[i]) <= r
    ensures exists i :: 0 <= i < |groups| && GroupValue(byRole, groups[i]) == r
  {
    var values := seq(|groups|, i requires 0 <= i < |groups| => GroupValue(byRole, groups[i]));
    assert forall i :: 0 <= i < |groups| ==> values[i] == GroupValue(byRole, groups[i]);
    MaxOf(values)
  }

  /** A host none of whose groups has a role listed in a row owes nothing for that row. */
  lemma NoListedRoleOwesNothing(byRole: map<Role, nat>, groups: seq<string>)
    requires |groups| > 0
    requires forall i :: 0 <= i < |groups| ==> RoleOf(groups[i]).None? || RoleOf(groups[i]).value !in byRole
    ensures Strictest(byRole, groups) == 0
  {
    var i :| 0 <= i < |groups| && GroupValue(byRole, groups[i]) == Strictest(byRole, groups);
  }

  /** Adding groups to a host never lowers its requirement. */
  lemma MoreGroupsNeverLower(byRole: map<Role, nat>, groups: seq<string>, extra: seq<string>)
    requires |groups| > 0
    ensures Strictest(byRole, groups) <= Strictest(byRole, groups + extra)
  {
    var i :| 0 <= i < |groups| && GroupValue(byRole, groups[i]) == Strictest(byRole, groups);
    assert (groups + extra)[i] == groups[i];
  }

  /** The roles named anywhere in a table, as group names. */
  function TableGroups(t: seq<Entry>): set<string> {
    set i, r | 0 <= i < |t| && r in t[i].byRole :: RoleName(r)
  }

  /** Whatever the temporary directory, the table names exactly the masters, nodes and etcd groups. */
  lemma TableGroupsAreTheRoles(tmp: string)
    ensures TableGroups(InstallTable(tmp)) == {"masters", "nodes", "etcd"}
  {
    var t := InstallTable(tmp);
    forall g | g in TableGroups(t)
      ensures g in {"masters", "nodes", "etcd"}
    {
      var i, r :| 0 <= i < |t| && r in t[i].byRole && g == RoleName(r);
    }
    assert Masters in t[0].byRole && Nodes in t[0].byRole && Etcd in t[0].byRole;
    assert RoleName(Masters) in TableGroups(t);
    assert RoleName(Nodes) in TableGroups(t);
    assert RoleName(Etcd) in TableGroups(t);
  }
}

=== FILE: results.dfy ===
/** Optional values and success-or-error results shared by the other modules. */
module Results {

  /** A value that may be absent: a mount record with or without `size_available`. */
  datatype Option<+T> = None | Some(value: T)

  /** The outcome of a computation that may raise: a value, or the error it raised. */
  datatype Result<+T, +E> = Ok(value: T) | Err(error: E)
}

=== FILE: scenarios.dfy ===
/** Worked cases of the check on small mount tables, derived from the general lemmas. */
module Scenarios {
  import opened Results
  import opened PosixPath
  import opened Mounts
  import opened Requirements
  import opened DiskAvailability

  /** `mounts` holds `/` with 50 GB free and `/var` with 8 GB free, and nothing else. */
  predicate IsSmallVar(mounts: MountTable) {
    mounts.Keys == {"/", "/var"} && mounts["/"] == Some(50 * GB) && mounts["/var"] == Some(8 * GB)
  }

  /** `/usr/local/bin` is three components below `/`, so a rooted table resolves it. */
  lemma UsrLocalBinResolvesUnderRoot(mounts: MountTable)
    requires "/" in mounts
    requires forall m :: m in mounts ==> mounts[m].Some?
    ensures FreeBytes("/usr/local/bin", mounts).Ok?
  {
    var cs := ["usr", "local", "bin"];
    assert cs[..2] == ["usr", "local"];
    assert ["usr", "local"][..1] == ["usr"];
    assert "/usr/local/bin" == Join(cs);
    assert AllComponents(cs);
    RootedTableResolvesShallowPaths(mounts, cs);
  }

  /** A single-role host's requirement is its role's table value when nothing overrides it. */
  lemma SingleRoleRequirement(e: Entry, role: Role, o: Override, context: string)
    requires OverrideBytes(o, e.path, [RoleName(role)]) == 0
    requires role in BaselineRow(e, context)
    ensures Required(e, [RoleName(role)], o, context) == BaselineRow(e, context)[role]
  {
    assert RoleOf(RoleName(role)) == Some(role);
  }

  /** A node installing onto an 8 GB `/var` fails there: it needs 15 GB. */
  lemma NodeInstallFailsOnVar(mounts: MountTable, tmp: string)
    requires IsSmallVar(mounts) && tmp != "/var"
    ensures Run(Host(["nodes"], NoOverride, ""), mounts, tmp) == Ok(Fail("/var", 8 * GB, 15 * GB))
  {
    var host := Host(["nodes"], NoOverride, "");
    var rows := InstallTable(tmp);
    MountedPathResolvesDirectly(mounts, "/var");
    NoOverrideIsZero("/var", ["nodes"]);
    SingleRoleRequirement(rows[0], Nodes, NoOverride, "");
    FirstDeficientRowFails(rows, host, Resolve(mounts), 0);
  }

  /** Both mounts of the small table record at least 1 GB free. */
  lemma SmallVarMountsHaveAGB(mounts: MountTable)
    requires IsSmallVar(mounts)
    ensures "/" in mounts
    ensures forall m :: m in mounts ==> mounts[m].Some? && mounts[m].value >= GB
  {
    forall m | m in mounts
      ensures mounts[m].Some? && mounts[m].value >= GB
    {
      assert m in {"/", "/var"};
    }
  }

  /** A 1 GB row other than `/var` is satisfied for a node in an upgrade by any path with 1 GB free. */
  lemma OtherRowAdequate(e: Entry, free: Resolver)
    requires e.path != "/var" && e.byRole == Uniformly(GB)
    requires free(e.path).Ok? && free(e.path).value >= GB
    ensures Adequate(e, Host(["nodes"], NoOverride, UpgradeContext), free)
  {
    NoOverrideIsZero(e.path, ["nodes"]);
    SingleRoleRequirement(e, Nodes, NoOverride, UpgradeContext);
  }

  /**
    The same node in an upgrade needs only 5 GB on `/var`, and any temporary
    directory of at most `MaxDepth` components resolves to a mount with room for
    its 1 GB, so the check passes.
   */
  lemma NodeUpgradePasses(mounts: MountTable, cs: seq<string>)
    requires IsSmallVar(mounts)
    requires AllComponents(cs) && |cs| <= MaxDepth
    ensures Run(Host(["nodes"], NoOverride, UpgradeContext), mounts, Join(cs)) == Ok(Pass)
  {
    SmallVarMountsHaveAGB(mounts);
    RootedTableResolvesShallowPaths(mounts, cs);
    NodeUpgradePassesIfTmpResolves(mounts, Join(cs));
  }

  /** The upgrade case for any temporary directory that resolves. */
  lemma NodeUpgradePassesIfTmpResolves(mounts: MountTable, tmp: string)
    requires IsSmallVar(mounts)
    requires FreeBytes(tmp, mounts).Ok?
    ensures Run(Host(["nodes"], NoOverride, UpgradeContext), mounts, tmp) == Ok(Pass)
  {
    var host := Host(["nodes"], NoOverride, UpgradeContext);
    var rows := InstallTable(tmp);
    SmallVarMountsHaveAGB(mounts);
    UsrLocalBinResolvesUnderRoot(mounts);
    MountedPathResolvesDirectly(mounts, "/var");
    forall i | 0 <= i < |rows|
      ensures Adequate(rows[i], host, Resolve(mounts))
    {
      UpgradeRowAdequate(rows[i], mounts);
    }
  }

  /** Every install row passes for a node in an upgrade on the small table, once its path resolves. */
  lemma UpgradeRowAdequate(e: Entry, mounts: MountTable)
    requires IsSmallVar(mounts)
    requires e.path == "/var" || e.byRole == Uniformly(GB)
    requires FreeBytes(e.path, mounts).Ok?
    ensures Adequate(e, Host(["nodes"], NoOverride, UpgradeContext), Resolve(mounts))
  {
    if e.path == "/var" {
      VarRowAdequate(e, mounts);
    } else {
      SmallVarMountsHaveAGB(mounts);
      FreeBytesWithinMounts(mounts, e.path, GB);
      OtherRowAdequate(e, Resolve(mounts));
    }
  }

  /** In an upgrade a node needs 5 GB on `/var`, whichever install row `/var` has. */
  lemma VarRowAdequate(e: Entry, mounts: MountTable)
    requires IsSmallVar(mounts) && e.path == "/var"
    ensures Adequate(e, Host(["nodes"], NoOverride, UpgradeContext), Resolve(mounts))
  {
    MountedPathResolvesDirectly(mounts, "/var");
    NoOverrideIsZero("/var", ["nodes"]);
    SingleRoleRequirement(e, Nodes, NoOverride, UpgradeContext);
  }

  /** A master given a bare 3 GB override fails on a `/var` with 2 GB free: the override replaces the 40 GB default. */
  lemma BareNumberOverrideFailsOnVar(mounts: MountTable, tmp: string)
    requires "/var" in mounts && mounts["/var"] == Some(2 * GB)
    ensures Run(Host(["masters"], Uniform(3), ""), mounts, tmp) == Ok(Fail("/var", 2 * GB, 3 * GB))
  {
    var host := Host(["masters"], Uniform(3), "");
    MountedPathResolvesDirectly(mounts, "/var");
    BareNumberOnVar(["masters"], 3);
    assert RoleOf(["masters"][0]).Some?;
    FirstDeficientRowFails(InstallTable(tmp), host, Resolve(mounts), 0);
  }

  /** With no mounts at all, the first monitored path already raises, and any listing of the (empty) known mounts reads `none`. */
  lemma EmptyMountTableRaises(host: Host, mounts: MountTable, tmp: string)
    requires |mounts| == 0
    ensures Run(host, mounts, tmp) == Err(Unresolvable(MountError("/var", {})))
    ensures forall listed: seq<string> :: (forall m :: m in listed <==> m in mounts) ==> KnownMountsText(listed) == "none"
  {
    assert mounts.Keys == {};
    forall listed: seq<string> | forall m :: m in listed <==> m in mounts
      ensures KnownMountsText(listed) == "none"
    {
      EmptyTableListsNone(mounts, listed);
    }
    UnmountedAncestryFails(mounts, "/var");
    FirstUnresolvedRowRaises(InstallTable(tmp), host, Resolve(mounts), 0);
  }

  /**
    A temporary directory at `/var` collapses the two `/var` rows into the
    later 1 GB one, so a master's first install asks only 1 GB there, and an
    upgrade then asks more of a node than its first install does.
   */
  lemma TmpAtVarReversesUpgrade()
    ensures InstallTable("/var")[0].path == "/var" && InstallTable("/var")[0].byRole == Uniformly(GB)
    ensures Required(InstallTable("/var")[0], ["masters"], NoOverride, "") == GB
    ensures Required(InstallTable("/var")[0], ["nodes"], NoOverride, "") == GB
    ensures Required(InstallTable("/var")[0], ["nodes"], NoOverride, UpgradeContext) == 5 * GB
  {
  }
}

=== FILE: string_order.dfy ===
/**
  The ordering Python's `sorted` applies to strings (code point by code point,
  a proper prefix first), and sorting a finite set of strings by insertion.
 */
module StringOrder {

  /** `a` sorts no later than `b`. */
  predicate LessEq(a: string, b: string) {
    |a| == 0 || (|b| > 0 && (a[0] < b[0] || (a[0] == b[0] && LessEq(a[1..], b[1..]))))
  }

  lemma {:induction false} LessEqTotal(a: string, b: string)
    ensures LessEq(a, b) || LessEq(b, a)
    decreases |a|
  {
    if |a| > 0 && |b| > 0 && a[0] == b[0] {
      LessEqTotal(a[1..], b[1..]);
    }
  }

  lemma {:induction false} LessEqTransitive(a: string, b: string, c: string)
    requires LessEq(a, b) && LessEq(b, c)
    ensures LessEq(a, c)
    decreases |a|
  {
    if |a| > 0 && a[0] == b[0] && b[0] == c[0] {
      LessEqTransitive(a[1..], b[1..], c[1..]);
    }
  }

  lemma {:induction false} LessEqAntisymmetric(a: string, b: string)
    requires LessEq(a, b) && LessEq(b, a)
    ensures a == b
    decreases |a|
  {
    if |a| > 0 {
      LessEqAntisymmetric(a[1..], b[1..]);
      assert a == [a[0]] + a[1..] && b == [b[0]] + b[1..];
    }
  }

  /** Every earlier element sorts no later than every later one. */
  predicate Sorted(s: seq<string>) {
    forall i, j :: 0 <= i < j < |s| ==> LessEq(s[i], s[j])
  }

  /** No string occurs twice. */
  predicate Distinct(s: seq<string>) {
    forall i, j :: 0 <= i < j < |s| ==> s[i] != s[j]
  }

  /** `s` with `x` placed before the first element it sorts no later than. */
  function Insert(s: seq<string>, x: string): (r: seq<string>)
    requires Sorted(s)
    ensures Sorted(r)
    ensures |r| == |s| + 1
    ensures forall y :: y in r <==> y in s || y == x
    ensures Distinct(s) && x !in s ==> Distinct(r)
  {
    if |s| == 0 then [x]
    else if LessEq(x, s[0]) then
      assert forall j :: 0 < j < |s| ==> LessEq(x, s[j]) by {
        forall j | 0 < j < |s| {
          LessEqTransitive(x, s[0], s[j]);
        }
      }
      [x] + s
    else
      var tail := Insert(s[1..], x);
      LessEqTotal(x, s[0]);
      assert forall y :: y in tail ==> LessEq(s[0], y);
      assert Distinct(s) && x !in s ==> s[0] !in tail;
      assert Distinct(s) ==> Distinct(s[1..]);
      [s[0]] + tail
  }

  /** The elements of `known` in sorted order, each exactly once. */
  method SortSet(known: set<string>) returns (s: seq<string>)
    ensures Sorted(s) && Distinct(s)
    ensures forall y :: y in s <==> y in known
    ensures |s| == |known|
  {
    s := [];
    var rest := known;
    while rest != {}
      invariant Sorted(s) && Distinct(s)
      invariant rest <= known
      invariant forall y :: y in s <==> y in known && y !in rest
      invariant |s| + |rest| == |known|
      decreases |rest|
    {
      var x :| x in rest;
      s := Insert(s, x);
      rest := rest - {x};
    }
  }

  /** The head of a sorted listing sorts no later than anything in it. */
  lemma HeadIsLeast(s: seq<string>, y: string)
    requires Sorted(s) && y in s
    ensures LessEq(s[0], y)
  {
    var i :| 0 <= i < |s| && s[i] == y;
    if i == 0 {
      LessEqTotal(y, y);
    }
  }

  /** Two sorted duplicate-free listings of the same strings coincide: the sorted listing of a set is unique. */
  lemma {:induction false} SortedListingUnique(s: seq<string>, t: seq<string>)
    requires Sorted(s) && Sorted(t) && Distinct(s) && Distinct(t)
    requires |s| == |t|
    requires forall y :: y in s <==> y in t
    ensures s == t
    decreases |s|
  {
    if |s| > 0 {
      assert t[0] in s && s[0] in t;
      HeadIsLeast(s, t[0]);
      HeadIsLeast(t, s[0]);
      LessEqAntisymmetric(s[0], t[0]);
      TailsAgree(s, t);
      SortedListingUnique(s[1..], t[1..]);
      assert s == [s[0]] + s[1..] && t == [t[0]] + t[1..];
    }
  }

  /** Removing an equal, duplicate-free head from two listings of the same strings leaves listings of the same strings. */
  lemma TailsAgree(s: seq<string>, t: seq<string>)
    requires |s| > 0 && |t| > 0 && s[0] == t[0]
    requires Distinct(s) && Distinct(t)
    requires forall y :: y in s <==> y in t
    ensures forall y :: y in s[1..] <==> y in t[1..]
  {
    forall y
      ensures y in s[1..] <==> y in t[1..]
    {
      if y in s[1..] {
        var k :| 1 <= k < |s| && s[k] == y;
        assert y != s[0];
        assert y in t;
      }
      if y in t[1..] {
        var k :| 1 <= k < |t| && t[k] == y;
        assert y != t[0];
        assert y in s;
      }
    }
  }
}
